=== FILE: README.md ===
# Letter-collecting Snake: a Dafny model of the game logic

This project models the game-state logic of `game.js` in Witch_case.
It is a Snake on a 20×20 grid. The player steers the snake onto target
letters handed out one at a time from the repeating pattern `pascal_`.
Every collected letter is worth 100 points. A word bonus (500 for the first
"Pascal", 1000 for each later "_pascal") is meant to be paid when the snake's
letters, read from the head, spell complete words.

The model is functional. One immutable `GameState` record holds the snake
(head first), the committed and the queued heading, the optional target
letter, the pattern cursor, the rewarded word count, and the current, best
and last scores, plus the running flag. Pure functions model `startGame`,
`stopGame`, `setDirection` and one tick of `update`. The tick includes
`collectLetter`, `checkBonuses`, `countPascals`, `spawnLetter` and
`isOccupied`. `Math.random` is replaced by a sequence of drawn grid cells
that the caller passes in.

Modules:

- `Optional` (optional.dfy): an optional value, standing in for `null`.
- `Board` (board.dfy): the grid, segments, headings and the direction table.
- `Pattern` (pattern.dfy): `countPascals`, with a reference characterisation and the scanning loop.
- `Spawn` (spawn.dfy): target placement with at most 100 draws.
- `Game` (game.dfy): the state record and its operations.
- `Session` (session.dfy): the invariant of every reachable state, and sessions as sequences of inputs.

## Behaviour as written

The model follows the code, including these points, each of which is proved:

- The word match is case-sensitive. "PASCAL_PASCAL" counts 0 (`Pattern.CountPascalsExamples`).
- Self-collision tests every segment, the tail included. So moving onto the
  cell the tail is about to leave ends the game (`Game.TailCountsInCollision`).
- Collecting a letter adds two segments on the same cell: first the
  collected one, then the new head (`Game.TickCollectsGrows`).
- The head letter is always `P`, because the new head copies it (`Session.Inv`).
- After 100 draws that all hit the snake, the target is placed on the snake anyway (`Spawn.SpawnMayOverlap`).
- The bonus is evaluated on the snake after the collected segment is added
  but before the new head is. That string starts with a lowercase pattern
  letter, so `countPascals` returns 0. As wired, no word bonus is ever paid,
  and `pascalCount` stays 0 (`Session.CollectingTickPaysLetterOnly`).
- There are no decoy letters and no difficulty setting in this code, so none are modelled.
- A tick commits the queued heading even when it then ends the game.

## Model

| member | source | states |
|---|---|---|
| Board.ParseDir | game.js:368-375 | exactly the names "up", "down", "left", "right" map to a heading, each to its own; any other name is unknown |
| Board.ReversesIsOpposite | game.js:377-378 | the vector-sum test for a 180-degree turn holds exactly when the requested heading is the opposite of the committed one |
| Board.IsOccupied | game.js:271-273 | a cell is occupied exactly when some segment of the snake, at any index, sits on it |
| Board.OccupiedBehindHead | game.js:163-175 | when the first two segments share a cell, dropping the first one leaves the set of occupied cells unchanged |
| Board.Letters | game.js:192 | the snake string has one character per segment, the i-th being the i-th segment's letter, head first |
| Pattern.CountPascals | game.js:214-237 | a positive count n needs "Pascal" at the start and room for n words (6 letters, then 7 per further word); the count never exceeds (length + 1) / 7 |
| Pattern.CountPascalsChain | game.js:218-236 | a string made of n complete words ("Pascal" then n-1 "_pascal") followed by anything that is not another "_pascal" counts exactly n |
| Pattern.CountPascalsSplit | game.js:218-236 | conversely, a positive count n means the string is n complete words followed by something that does not start with "_pascal" |
| Pattern.CountPascalsExamples | game.js:218-236 | "Pascal"→1, "Pascal_pascal"→2, "Pascal_pascal_pascal"→3, "Pascal_pasca"→1, "Pasca"→0, "Xascal"→0, "PASCAL_PASCAL"→0, "Pascal_PASCAL"→1 |
| Pattern.NoCapitalNoCount | game.js:218-221 | a non-empty string whose first letter is not a capital P counts 0 |
| Pattern.BlocksOfRepeat | game.js:226-234 | k "_pascal" blocks followed by a non-block are scanned as exactly k blocks |
| Pattern.BlocksSplit | game.js:226-234 | the scan stops on a string that is its counted blocks followed by a rest that is not a block |
| Pattern.CountPascalsLoop | game.js:214-237 | the scanning loop returns the count characterised above |
| Spawn.Probe | game.js:262-266 | the do-while retry ends after at most 100 draws; every draw before the last hit the snake; ending before 100 means the last draw is free |
| Spawn.SpawnLetter | game.js:256-273 | the target carries the pattern letter at the cursor and sits on the first free draw, or on the 100th draw when none of the 100 is free; so if any of the first 100 draws is free the target does not overlap the snake; it is on the grid and uses 1 to 100 draws |
| Spawn.SpawnMayOverlap | game.js:266-268 | when all 100 draws hit the snake, all 100 are used and the target lies on the snake |
| Spawn.SpawnLetterLoop | game.js:256-269 | the placement loop yields the same target and draw count as the placement rule |
| Game.Initial | game.js:12-21 | on page load there is no snake, no target and no running game; the heading is right and the counters are 0; the stored best and last scores are kept |
| Game.StartGame | game.js:79-99 | a new game has one 'P' segment at the centre (10, 10), heading right with right queued, cursor 1, no rewarded words, score 0, and is running; the first target is the spawn rule's placement of the 'a' against that one-segment snake, on the grid; best and last scores are untouched |
| Game.StartGameTargetOffSnake | game.js:81-95 | the first target lands on the starting segment only if every one of the first 100 draws is the centre cell |
| Game.StopGame | game.js:101-118 | stopping always clears running; a positive score becomes the last score and the best becomes the larger of the best and the score; a zero score changes neither; nothing else changes |
| Game.StopGameIdempotent | game.js:101-118 | stopping a stopped game records nothing new |
| Game.StartThenStopKeepsRecord | game.js:79-118 | stopping a game before it scores leaves the best and last scores as they were |
| Game.SetDirection | game.js:365-381 | only the queued heading can change, and only while running, to the named heading; a heading opposite the committed one is never queued; not running or an unknown name leaves the state unchanged |
| Game.SetDirectionIdempotent | game.js:365-381 | repeating the same steering input has no further effect |
| Game.CheckBonuses | game.js:190-212 | the rewarded count never decreases; it rises exactly when the snake string counts more words, and then it becomes that count; one bonus is paid, 500 when the count becomes 1 and 1000 otherwise, however far the count jumped; otherwise nothing changes |
| Game.CheckBonusesIdempotent | game.js:198-211 | a second bonus check on the same snake pays nothing more |
| Game.CollectLetter | game.js:168-188 | one segment with the target letter is put in front of the snake at the head cell; the score rises by exactly 100 when the grown snake counts no more words than were rewarded, and otherwise by 100 plus 500 (new count 1) or 1000 (later), the rewarded count becoming the new count; the cursor advances modulo 7; the new target is the spawn rule's placement against the grown snake at the new cursor, so it carries that pattern letter, is on the grid and is off the snake whenever one of the first 100 draws is free |
| Game.NextHead | game.js:132-137 | the new head keeps the head's letter and is the cell one step along the queued heading: up lowers y, down raises it, left lowers x, right raises it |
| Game.Crashes | game.js:139-152 | a move is safe exactly when the new head is on the grid and on no segment at any index; moving onto the tail's cell always crashes |
| Game.Collects | game.js:154-155 | a new head on the target's cell collects; collecting needs a target; a collecting head on an on-grid target is on the grid; a target under the snake can only be reached by a move that crashes |
| Game.Tick | game.js:127-166 | the queued heading is committed before anything else; a move off the grid or onto any segment stops the game with the score record updated; any other move puts the new head, one step along the committed heading, in front, leaves the running flag as it was and leaves the score record alone |
| Game.TickFollowsHeading | game.js:129-163 | a move that does not crash puts the head at the old head plus the committed heading's vector; the snake grows by two exactly when that cell holds the target, and keeps its length exactly when the move does not collect |
| Game.TickMoves | game.js:155-163 | a move that collects nothing keeps the length: the new head goes in front, the tail segment is dropped, and score, cursor and target stay as they were |
| Game.TickCollectsGrows | game.js:155-175 | a collecting move adds exactly two segments, both on the new head's cell: the head, then the collected letter, then the old snake unchanged |
| Game.TickCollectsScores | game.js:168-212 | a collecting move pays exactly 100 when the snake without its new head counts no more words than were rewarded; otherwise it pays 100 plus 500 if that count is 1 and 1000 if it is more, and the rewarded count becomes that count |
| Game.TickCollectsAdvances | game.js:183-187 | a collecting move advances the cursor modulo 7 and the new target carries the pattern letter at the new cursor, on the grid |
| Game.TickCollectsPlacesTarget | game.js:168-187 | the new target is the spawn rule's placement against the snake without its new head, at the new cursor |
| Game.TickCollectsAvoidsSnake | game.js:256-273 | after a collecting move, if one of the first 100 draws is free of the new snake, the new target is not on the new snake |
| Game.TickCrashKeepsSnake | game.js:139-163 | the snake is left unchanged exactly when the move crashes |
| Game.TickStaysInGrid | game.js:139-163 | if every segment is on the grid before a tick, every segment is on the grid after it |
| Game.TailCountsInCollision | game.js:146-152 | moving onto the tail's cell stops the game and leaves the snake as it was |
| Session.InitialInv | game.js:12-21 | the page-load state satisfies the invariant |
| Session.CollectingTickPaysLetterOnly | game.js:168-192 | in a reachable state, a collecting tick raises the score by exactly 100 and pays no word bonus |
| Session.TickKeepsInv | game.js:127-166 | a tick keeps the head letter P, all segments on the grid, the cursor in [0, 7), the target a pattern letter on the grid, the queued heading not opposite the committed one, and the score a non-negative multiple of 100 |
| Session.TickNeverReverses | game.js:127-137 | in a reachable state, a tick never commits the heading opposite to the one it replaces |
| Session.Step | game.js:71-77 | the toggle stops a running game (snake kept, a positive score recorded as the last score) and starts a stopped one (score 0, one 'P' segment at the centre); a steering input never moves the snake, queues a valid non-reversing heading while running and does nothing otherwise; a timer tick of a running game commits the queued heading, which never reverses the old one, and does nothing when stopped; every input keeps the invariant and never lowers the best score |
| Session.Run | game.js:71-103 | any sequence of inputs keeps the invariant and never lowers the best score |
| Session.ReachableInv | game.js:79-99 | every state reached from page load satisfies the invariant and keeps the stored best score or raises it |
| Session.SessionNeverReverses | game.js:365-381 | along any session, each tick of a running game commits a heading that is not the reverse of the previously committed one |

## Left out

- Drawing (`draw`, the game-over flash) is rendering only.
- DOM setup, listeners, the keyboard mapping in `handleKeydown` and `updateScoreDisplay` are UI plumbing. A steering input is modelled by the direction name it passes to `setDirection`.
- `localStorage` reads and writes and `parseInt` are persistence I/O. `bestScore` and `lastScore` are plain integers given to `Initial`.
- `setInterval`, `clearInterval`, `setTimeout` and `showBonus` are timers and notifications. A tick is a function the caller applies, and `Session.Step` ticks only while a game runs, because the interval exists only then.
- `Math.random` is replaced by a caller-supplied sequence of cells. `Spawn.SpawnLetter` requires at least 100 draws, each on the grid, which is what `Math.floor(Math.random() * 20)` guarantees.
- Game.Tick: requires a non-empty snake. On page load the snake is empty and `update` would fail, but the timer that calls it only exists after `startGame`.
- Board.ParseDir: names inherited by JavaScript objects, such as "constructor", are not modelled. In the source they would pass the lookup with a non-vector value. No caller passes them.
- Scores are unbounded integers. JavaScript numbers are exact only up to 2^53, which no game reaches.

=== FILE: board.dfy ===
/**
  The playing field of the letter-collecting Snake: a square grid of cells,
  the lettered segments the snake is made of, and the four headings it can
  travel in (game.js:2, 13-14, 81-85, 365-381).
 */
module Board {
  import opened Optional

  /** Number of cells along each side of the square grid. */
  const GridSize: int := 20

  /** A grid cell, as produced by one random placement draw. */
  datatype Cell = Cell(x: int, y: int)

  /** One snake segment, or the target letter: a cell carrying a letter. */
  datatype Segment = Segment(x: int, y: int, letter: char)

  predicate InGrid(x: int, y: int) {
    0 <= x < GridSize && 0 <= y < GridSize
  }

  /** Every segment lies on the grid. */
  predicate AllInGrid(snake: seq<Segment>) {
    forall i :: 0 <= i < |snake| ==> InGrid(snake[i].x, snake[i].y)
  }

  /**
    `isOccupied`: some segment of the snake, the tail included, sits on
    cell (x, y). Scans the segments head first, as `some` does.
   */
  function IsOccupied(snake: seq<Segment>, x: int, y: int): (b: bool)
    ensures b <==> exists i :: 0 <= i < |snake| && snake[i].x == x && snake[i].y == y
  {
    if snake == [] then false
    else (snake[0].x == x && snake[0].y == y) || IsOccupied(snake[1..], x, y)
  }

  /** A head placed on the cell of the segment behind it covers no further cell. */
  lemma OccupiedBehindHead(snake: seq<Segment>, x: int, y: int)
    requires |snake| >= 2
    requires snake[0].x == snake[1].x && snake[0].y == snake[1].y
    ensures IsOccupied(snake, x, y) <==> IsOccupied(snake[1..], x, y)
  {
    if IsOccupied(snake, x, y) {
      var i :| 0 <= i < |snake| && snake[i].x == x && snake[i].y == y;
      var k := if i == 0 then 0 else i - 1;
      assert snake[1..][k].x == x && snake[1..][k].y == y;
    }
  }

  /** The snake's letters read from head to tail. */
  function Letters(snake: seq<Segment>): (r: string)
    ensures |r| == |snake|
    ensures forall i :: 0 <= i < |snake| ==> r[i] == snake[i].letter
  {
    if snake == [] then [] else [snake[0].letter] + Letters(snake[1..])
  }

  /** A heading; the source stores it as a unit vector. */
  datatype Dir = Up | Down | Left | Right

  /** Horizontal component of a heading (x grows to the right). */
  function DX(d: Dir): (r: int) {
    match d
    case Left => -1
    case Right => 1
    case _ => 0
  }

  /** Vertical component of a heading (y grows downwards). */
  function DY(d: Dir): (r: int) {
    match d
    case Up => -1
    case Down => 1
    case _ => 0
  }

  /** The heading pointing the other way. */
  function Opposite(d: Dir): (o: Dir)
    ensures o != d
    ensures DX(o) == -DX(d) && DY(o) == -DY(d)
  {
    match d
    case Up => Down
    case Down => Up
    case Left => Right
    case Right => Left
  }

  /**
    The direction table of `setDirection`: the four names it knows, and
    nothing for any other name.
   */
  function ParseDir(name: string): (r: Option<Dir>)
    ensures r.Some? <==> name in {"up", "down", "left", "right"}
    ensures r == Some(Up) <==> name == "up"
    ensures r == Some(Down) <==> name == "down"
    ensures r == Some(Left) <==> name == "left"
    ensures r == Some(Right) <==> name == "right"
  {
    if name == "up" then Some(Up)
    else if name == "down" then Some(Down)
    else if name == "left" then Some(Left)
    else if name == "right" then Some(Right)
    else None
  }

  /**
    The source's 180-degree test: the two vectors sum to zero in both
    components.
   */
  predicate Reverses(current: Dir, requested: Dir) {
    DX(current) + DX(requested) == 0 && DY(current) + DY(requested) == 0
  }

  /** The vector test rejects exactly the opposite heading. */
  lemma ReversesIsOpposite(current: Dir, requested: Dir)
    ensures Reverses(current, requested) <==> requested == Opposite(current)
  {
  }
}

=== FILE: game.dfy ===
/**
  The game state and the operations on it (game.js:10-21, 79-237, 365-381):
  starting and stopping a game, steering, and the per-tick update with
  letter collection and the word bonus.
 */
module Game {
  import opened Optional
  import opened Board
  import opened Pattern
  import opened Spawn

  /** Points for every collected letter. */
  const LetterPoints: int := 100

  /** Bonus for the first complete word. */
  const FirstWordBonus: int := 500

  /** Bonus for every later rise of the word count. */
  const LaterWordBonus: int := 1000

  /** The single bonus paid when the word count rises to `count`. */
  function WordBonus(count: nat): int {
    if count == 1 then FirstWordBonus else LaterWordBonus
  }

  /** Everything the game keeps between ticks. `bestScore` and `lastScore` outlive a game. */
  datatype GameState = GameState(
    snake: seq<Segment>,           // head first
    direction: Dir,                // heading committed at the last tick
    nextDirection: Dir,            // heading the next tick will commit
    targetLetter: Option<Segment>,
    currentLetterIndex: nat,       // position in `Word` of the next letter to hand out
    pascalCount: nat,              // words already rewarded in this game
    score: int,
    bestScore: int,
    lastScore: int,
    running: bool)

  /** The cell the game starts the snake on. */
  const Centre: Cell := Cell(GridSize / 2, GridSize / 2)

  /** The state on page load, with the two scores read back from storage. */
  function Initial(bestScore: int, lastScore: int): (s: GameState)
    ensures s.snake == [] && !s.running && s.targetLetter.None?
    ensures s.direction == Right && s.nextDirection == Right
    ensures s.score == 0 && s.pascalCount == 0 && s.currentLetterIndex == 0
    ensures s.bestScore == bestScore && s.lastScore == lastScore
  {
    GameState([], Right, Right, None, 0, 0, 0, bestScore, lastScore, false)
  }

  /**
    `startGame`: a one-segment snake 'P' on the centre cell heading right,
    the cursor on the 'a' of the pattern, the counters cleared, and the first
    target placed. The two stored scores are kept.
   */
  function StartGame(s: GameState, draws: seq<Cell>): (r: GameState)
    requires ValidDraws(draws)
    ensures r.snake == [Segment(Centre.x, Centre.y, 'P')]
    ensures r.direction == Right && r.nextDirection == Right
    ensures r.currentLetterIndex == 1 && r.pascalCount == 0 && r.score == 0
    ensures r.running
    ensures r.bestScore == s.bestScore && r.lastScore == s.lastScore
    ensures r.targetLetter.Some? && r.targetLetter.value.letter == 'a'
    ensures r.targetLetter == Some(SpawnLetter(r.snake, 1, draws).target)
    ensures InGrid(r.targetLetter.value.x, r.targetLetter.value.y)
  {
    var snake := [Segment(Centre.x, Centre.y, 'P')];
    var p := SpawnLetter(snake, 1, draws);
    GameState(snake, Right, Right, Some(p.target), 1, 0, 0, s.bestScore, s.lastScore, true)
  }

  /** The first target lands off the starting snake unless all of the first draws hit the centre. */
  lemma StartGameTargetOffSnake(s: GameState, draws: seq<Cell>)
    requires ValidDraws(draws)
    ensures var r := StartGame(s, draws);
            r.targetLetter.value.x == Centre.x && r.targetLetter.value.y == Centre.y ==>
              forall j :: 0 <= j < MaxAttempts ==> draws[j] == Centre
  {
    var snake := [Segment(Centre.x, Centre.y, 'P')];
    var p := SpawnLetter(snake, 1, draws);
    if p.target.x == Centre.x && p.target.y == Centre.y {
      assert snake[0].x == p.target.x && snake[0].y == p.target.y;
      forall j | 0 <= j < MaxAttempts
        ensures draws[j] == Centre
      {
        if j < p.attempts - 1 {
          assert IsOccupied(snake, draws[j].x, draws[j].y);
        }
      }
    }
  }

  /**
    `stopGame`: halts the game. A positive score becomes the last score and
    raises the best score when it beats it; a zero score leaves both alone.
   */
  function StopGame(s: GameState): (r: GameState)
    ensures !r.running
    ensures s.score > 0 ==> r.lastScore == s.score
    ensures s.score > 0 ==> r.bestScore >= s.bestScore && r.bestScore >= s.score
    ensures s.score > 0 ==> r.bestScore == s.bestScore || r.bestScore == s.score
    ensures s.score <= 0 ==> r.lastScore == s.lastScore && r.bestScore == s.bestScore
    ensures r.(running := s.running, lastScore := s.lastScore, bestScore := s.bestScore) == s
  {
    var stopped := s.(running := false);
    if s.score > 0 then
      stopped.(lastScore := s.score,
               bestScore := if s.score > s.bestScore then s.score else s.bestScore)
    else
      stopped
  }

  /** Stopping twice records the same scores as stopping once. */
  lemma StopGameIdempotent(s: GameState)
    ensures StopGame(StopGame(s)) == StopGame(s)
  {
  }

  /** A game stopped before any point is scored leaves the score record untouched. */
  lemma StartThenStopKeepsRecord(s: GameState, draws: seq<Cell>)
    requires ValidDraws(draws)
    ensures StopGame(StartGame(s, draws)).bestScore == s.bestScore
    ensures StopGame(StartGame(s, draws)).lastScore == s.lastScore
  {
  }

  /**
    `setDirection`: while a game runs, a known direction name queues that
    heading unless it is the exact opposite of the committed one. Nothing
    else ever changes.
   */
  function SetDirection(s: GameState, name: string): (r: GameState)
    ensures r.(nextDirection := s.nextDirection) == s
    ensures r.nextDirection != s.nextDirection ==>
              s.running && ParseDir(name) == Some(r.nextDirection)
    ensures r.nextDirection != s.nextDirection ==> r.nextDirection != Opposite(s.direction)
    ensures !s.running || ParseDir(name).None? ==> r == s
    ensures s.running && ParseDir(name).Some? && ParseDir(name).value != Opposite(s.direction) ==>
              r.nextDirection == ParseDir(name).value
    ensures s.nextDirection != Opposite(s.direction) ==> r.nextDirection != Opposite(r.direction)
  {
    if !s.running then s
    else
      match ParseDir(name)
      case None => s
      case Some(newDir) =>
        ReversesIsOpposite(s.direction, newDir);
        if !Reverses(s.direction, newDir) then s.(nextDirection := newDir) else s
  }

  /** Repeating a steering input has no further effect. */
  lemma SetDirectionIdempotent(s: GameState, name: string)
    ensures SetDirection(SetDirection(s, name), name) == SetDirection(s, name)
  {
  }

  /**
    `checkBonuses`: counts the words spelled by the snake's letters. When
    the count rises above the rewarded one, a single bonus is paid (500 for
    the first word, 1000 otherwise, however far the count jumped) and the
    rewarded count follows.
   */
  function CheckBonuses(s: GameState): (r: GameState)
    ensures r.pascalCount >= s.pascalCount
    ensures r.pascalCount > s.pascalCount <==> CountPascals(Letters(s.snake)) > s.pascalCount
    ensures r.pascalCount > s.pascalCount ==> r.pascalCount == CountPascals(Letters(s.snake))
    ensures r.pascalCount == 1 && s.pascalCount == 0 ==> r.score == s.score + FirstWordBonus
    ensures r.pascalCount > s.pascalCount && r.pascalCount != 1 ==> r.score == s.score + LaterWordBonus
    ensures r.pascalCount == s.pascalCount ==> r == s
    ensures r.(score := s.score, pascalCount := s.pascalCount) == s
  {
    var n := CountPascals(Letters(s.snake));
    if n > s.pascalCount then
      s.(score := s.score + WordBonus(n), pascalCount := n)
    else
      s
  }

  /** A second bonus check on the same snake pays nothing more. */
  lemma CheckBonusesIdempotent(s: GameState)
    ensures CheckBonuses(CheckBonuses(s)) == CheckBonuses(s)
  {
  }

  /**
    `collectLetter`: puts a segment with the target's letter on the given
    cell in front of the snake, pays the letter, checks the word bonus on
    the grown snake, advances the cursor cyclically and places the next
    target for it.
   */
  function CollectLetter(s: GameState, position: Segment, draws: seq<Cell>): (r: GameState)
    requires s.targetLetter.Some?
    requires ValidDraws(draws)
    ensures |r.snake| == |s.snake| + 1
    ensures r.snake[0] == Segment(position.x, position.y, s.targetLetter.value.letter)
    ensures r.snake[1..] == s.snake
    ensures r.currentLetterIndex == (s.currentLetterIndex + 1) % |Word|
    ensures r.pascalCount >= s.pascalCount
    ensures r.pascalCount == s.pascalCount <==>
              CountPascals(Letters(r.snake)) <= s.pascalCount
    ensures r.pascalCount == s.pascalCount ==> r.score == s.score + LetterPoints
    ensures r.pascalCount > s.pascalCount ==>
              && r.pascalCount == CountPascals(Letters(r.snake))
              && r.score == s.score + LetterPoints + WordBonus(r.pascalCount)
    ensures r.targetLetter == Some(SpawnLetter(r.snake, r.currentLetterIndex, draws).target)
    ensures r.targetLetter.value.letter == Word[r.currentLetterIndex]
    ensures InGrid(r.targetLetter.value.x, r.targetLetter.value.y)
    ensures (exists j :: 0 <= j < MaxAttempts && !IsOccupied(r.snake, draws[j].x, draws[j].y)) ==>
              !IsOccupied(r.snake, r.targetLetter.value.x, r.targetLetter.value.y)
    ensures r.direction == s.direction && r.nextDirection == s.nextDirection
    ensures r.running == s.running && r.bestScore == s.bestScore && r.lastScore == s.lastScore
  {
    var grown := s.(snake := [Segment(position.x, position.y, s.targetLetter.value.letter)] + s.snake,
                    score := s.score + LetterPoints);
    var checked := CheckBonuses(grown);
    var advanced := checked.(currentLetterIndex := (checked.currentLetterIndex + 1) % |Word|);
    var p := SpawnLetter(advanced.snake, advanced.currentLetterIndex, draws);
    advanced.(targetLetter := Some(p.target))
  }

  /**
    The new head: one step from the head to a neighbouring cell, under the
    queued heading, keeping the head's letter.
   */
  function NextHead(s: GameState): (h: Segment)
    requires |s.snake| >= 1
    ensures h.letter == s.snake[0].letter
    ensures s.nextDirection == Up ==> h.x == s.snake[0].x && h.y == s.snake[0].y - 1
    ensures s.nextDirection == Down ==> h.x == s.snake[0].x && h.y == s.snake[0].y + 1
    ensures s.nextDirection == Left ==> h.x == s.snake[0].x - 1 && h.y == s.snake[0].y
    ensures s.nextDirection == Right ==> h.x == s.snake[0].x + 1 && h.y == s.snake[0].y
  {
    Segment(s.snake[0].x + DX(s.nextDirection), s.snake[0].y + DY(s.nextDirection), s.snake[0].letter)
  }

  /** The move ends the game: the new head leaves the grid or lands on any segment, the tail included. */
  function Crashes(s: GameState): (c: bool)
    requires |s.snake| >= 1
    ensures !c <==> InGrid(NextHead(s).x, NextHead(s).y) &&
                    forall i :: 0 <= i < |s.snake| ==>
                      s.snake[i].x != NextHead(s).x || s.snake[i].y != NextHead(s).y
    ensures s.snake[|s.snake| - 1].x == NextHead(s).x && s.snake[|s.snake| - 1].y == NextHead(s).y ==> c
  {
    var h := NextHead(s);
    !InGrid(h.x, h.y) || IsOccupied(s.snake, h.x, h.y)
  }

  /** The new head lands on the target letter. */
  function Collects(s: GameState): (c: bool)
    requires |s.snake| >= 1
    ensures c ==> s.targetLetter.Some?
    ensures c && InGrid(s.targetLetter.value.x, s.targetLetter.value.y) ==> InGrid(NextHead(s).x, NextHead(s).y)
    ensures c ==> !IsOccupied(s.snake, s.targetLetter.value.x, s.targetLetter.value.y) || Crashes(s)
    ensures s.targetLetter.Some? && NextHead(s).x == s.targetLetter.value.x && NextHead(s).y == s.targetLetter.value.y ==> c
  {
    var h := NextHead(s);
    s.targetLetter.Some? && h.x == s.targetLetter.value.x && h.y == s.targetLetter.value.y
  }

  /**
    `update`, one tick. The queued heading is committed first. A crash stops
    the game with the snake as it was. Otherwise the snake either moves (the
    tail segment is dropped, the new head added: same length) or collects
    the target (the collected segment and then the new head are put in
    front on the same cell: two segments longer).
   */
  function Tick(s: GameState, draws: seq<Cell>): (r: GameState)
    requires |s.snake| >= 1
    requires ValidDraws(draws)
    ensures r.direction == s.nextDirection && r.nextDirection == s.nextDirection
    ensures |r.snake| >= 1
    ensures Crashes(s) ==> r == StopGame(s.(direction := s.nextDirection))
    ensures !Crashes(s) ==> r.snake[0] == NextHead(s) && r.running == s.running
    ensures !Crashes(s) ==> r.bestScore == s.bestScore && r.lastScore == s.lastScore
    ensures r.bestScore >= s.bestScore
  {
    var s1 := s.(direction := s.nextDirection);
    var newHead := NextHead(s);
    if !InGrid(newHead.x, newHead.y) then
      StopGame(s1)
    else if IsOccupied(s.snake, newHead.x, newHead.y) then
      StopGame(s1)
    else if Collects(s) then
      var c := CollectLetter(s1, newHead, draws);
      c.(snake := [newHead] + c.snake)
    else
      s1.(snake := [newHead] + s.snake[..|s.snake| - 1])
  }

  /** A plain move keeps the length: the new head goes in front and the tail segment is dropped. */
  lemma TickMoves(s: GameState, draws: seq<Cell>)
    requires |s.snake| >= 1
    requires ValidDraws(draws)
    requires !Crashes(s) && !Collects(s)
    ensures var r := Tick(s, draws);
            && |r.snake| == |s.snake|
            && r.snake[0] == NextHead(s)
            && r.snake[1..] == s.snake[..|s.snake| - 1]
            && r.score == s.score && r.pascalCount == s.pascalCount
            && r.targetLetter == s.targetLetter
            && r.currentLetterIndex == s.currentLetterIndex
  {
  }

  /**
    A collecting move grows the snake by two segments on the new head's
    cell: the new head, then the collected letter, then the old snake.
   */
  lemma TickCollectsGrows(s: GameState, draws: seq<Cell>)
    requires |s.snake| >= 1
    requires ValidDraws(draws)
    requires !Crashes(s) && Collects(s)
    ensures var r := Tick(s, draws);
            && |r.snake| == |s.snake| + 2
            && r.snake[0] == NextHead(s)
            && r.snake[1] == Segment(r.snake[0].x, r.snake[0].y, s.targetLetter.value.letter)
            && r.snake[2..] == s.snake
  {
    var c := CollectLetter(s.(direction := s.nextDirection), NextHead(s), draws);
    assert Tick(s, draws).snake[1..] == c.snake;
  }

  /**
    A collecting move pays the letter and at most one bonus, the bonus being
    judged on the snake without the new head: 500 when that snake spells
    one word beyond none rewarded, 1000 for a later rise.
   */
  lemma TickCollectsScores(s: GameState, draws: seq<Cell>)
    requires |s.snake| >= 1
    requires ValidDraws(draws)
    requires !Crashes(s) && Collects(s)
    ensures var r := Tick(s, draws);
            && (r.pascalCount == s.pascalCount <==>
                  CountPascals(Letters(r.snake[1..])) <= s.pascalCount)
            && (r.pascalCount == s.pascalCount ==> r.score == s.score + LetterPoints)
            && (r.pascalCount > s.pascalCount ==>
                  && r.pascalCount == CountPascals(Letters(r.snake[1..]))
                  && r.score == s.score + LetterPoints + WordBonus(r.pascalCount))
  {
    var c := CollectLetter(s.(direction := s.nextDirection), NextHead(s), draws);
    assert Tick(s, draws).snake[1..] == c.snake;
  }

  /**
    A collecting move advances the cursor cyclically and hands out the
    pattern letter at the new cursor, on the grid.
   */
  lemma TickCollectsAdvances(s: GameState, draws: seq<Cell>)
    requires |s.snake| >= 1
    requires ValidDraws(draws)
    requires !Crashes(s) && Collects(s)
    ensures var r := Tick(s, draws);
            && |r.snake| >= 2
            && r.currentLetterIndex == (s.currentLetterIndex + 1) % |Word|
            && r.targetLetter.Some?
            && r.targetLetter.value.letter == Word[r.currentLetterIndex]
            && InGrid(r.targetLetter.value.x, r.targetLetter.value.y)
  {
  }

  /**
    A collecting move places the next target by the spawn rule, drawing
    against the snake without its new head.
   */
  lemma TickCollectsPlacesTarget(s: GameState, draws: seq<Cell>)
    requires |s.snake| >= 1
    requires ValidDraws(draws)
    requires !Crashes(s) && Collects(s)
    ensures var r := Tick(s, draws);
            && |r.snake| >= 2
            && r.targetLetter == Some(SpawnLetter(r.snake[1..], r.currentLetterIndex, draws).target)
  {
    var c := CollectLetter(s.(direction := s.nextDirection), NextHead(s), draws);
    assert Tick(s, draws).snake[1..] == c.snake;
  }

  /**
    The snake without its new head covers the same cells as the whole new
    snake, so the next target lands off the whole new snake whenever one of
    the first 100 draws is free of it.
   */
  lemma TickCollectsAvoidsSnake(s: GameState, draws: seq<Cell>, j: nat)
    requires |s.snake| >= 1
    requires ValidDraws(draws)
    requires !Crashes(s) && Collects(s)
    requires j < MaxAttempts && !IsOccupied(Tick(s, draws).snake, draws[j].x, draws[j].y)
    ensures var r := Tick(s, draws);
            r.targetLetter.Some? && !IsOccupied(r.snake, r.targetLetter.value.x, r.targetLetter.value.y)
  {
    var r := Tick(s, draws);
    TickCollectsGrows(s, draws);
    TickCollectsPlacesTarget(s, draws);
    OccupiedBehindHead(r.snake, draws[j].x, draws[j].y);
    OccupiedBehindHead(r.snake, r.targetLetter.value.x, r.targetLetter.value.y);
  }

  /**
    A move that does not crash steps the head one cell along the heading it
    has just committed, and the snake grows by two exactly when that cell
    holds the target; otherwise it keeps its length.
   */
  lemma TickFollowsHeading(s: GameState, draws: seq<Cell>)
    requires |s.snake| >= 1
    requires ValidDraws(draws)
    requires !Crashes(s)
    ensures var r := Tick(s, draws);
            && r.snake[0].x == s.snake[0].x + DX(r.direction)
            && r.snake[0].y == s.snake[0].y + DY(r.direction)
            && (|r.snake| == |s.snake| + 2 <==>
                  s.targetLetter.Some? && r.snake[0].x == s.targetLetter.value.x && r.snake[0].y == s.targetLetter.value.y)
            && (|r.snake| == |s.snake| <==> !Collects(s))
  {
    if Collects(s) {
      TickCollectsGrows(s, draws);
    } else {
      TickMoves(s, draws);
    }
  }

  /** A tick leaves the snake as it was exactly when it crashes: every real move changes the head's cell. */
  lemma TickCrashKeepsSnake(s: GameState, draws: seq<Cell>)
    requires |s.snake| >= 1
    requires ValidDraws(draws)
    ensures Crashes(s) <==> Tick(s, draws).snake == s.snake
  {
    if !Crashes(s) {
      assert !(s.snake[0].x == NextHead(s).x && s.snake[0].y == NextHead(s).y);
    }
  }

  /** No move that the game survives takes a segment off the grid. */
  lemma TickStaysInGrid(s: GameState, draws: seq<Cell>)
    requires |s.snake| >= 1
    requires ValidDraws(draws)
    requires AllInGrid(s.snake)
    ensures AllInGrid(Tick(s, draws).snake)
  {
    var r := Tick(s, draws);
    if !Crashes(s) {
      forall i | 0 <= i < |r.snake|
        ensures InGrid(r.snake[i].x, r.snake[i].y)
      {
        if i >= 1 {
          assert r.snake[i] in r.snake[1..];
        }
      }
    }
  }

  /** Moving onto the cell the tail still occupies is a crash, even though the tail would move away. */
  lemma TailCountsInCollision(s: GameState, draws: seq<Cell>)
    requires |s.snake| >= 1
    requires ValidDraws(draws)
    requires NextHead(s).x == s.snake[|s.snake| - 1].x && NextHead(s).y == s.snake[|s.snake| - 1].y
    ensures !Tick(s, draws).running
    ensures Tick(s, draws).snake == s.snake
  {
  }
}

=== FILE: optional.dfy ===
/** An optional value, standing in for a JavaScript reference that may be `null`. */
module Optional {

  datatype Option<T> = None | Some(value: T)
}

=== FILE: pattern.dfy ===
/**
  The word pattern and the counter of completed words (game.js:8, 214-237).
  The snake's letters, head first, are scored by how many words they spell
  from the very first letter on: "Pascal", then each further "_pascal" that
  follows immediately. The match is case-sensitive.
 */
module Pattern {

  /** The repeating pattern whose letters are handed out one at a time. */
  const Word: string := "pascal_"

  /** The first word must be spelled with a capital P. */
  const Head: string := "Pascal"

  /** Every later word is the separator followed by the lowercase word. */
  const Block: string := "_pascal"

  /** `t` begins with one more word block. */
  predicate StartsWithBlock(t: string) {
    |t| >= |Block| && t[..|Block|] == Block
  }

  /** Number of word blocks at the very start of `t`, one right after the other. */
  function Blocks(t: string): (n: nat)
    ensures |Block| * n <= |t|
    ensures n > 0 ==> StartsWithBlock(t)
    decreases |t|
  {
    if StartsWithBlock(t) then 1 + Blocks(t[|Block|..]) else 0
  }

  /**
    The number of complete words `countPascals` finds in `s`. Each word
    takes room: "Pascal" six letters, every "_pascal" seven more.
   */
  function CountPascals(s: string): (n: nat)
    ensures n >= 1 ==> |Head| + (n - 1) * |Block| <= |s| && s[..|Head|] == Head
    ensures n <= (|s| + 1) / |Block|
  {
    if |s| < |Head| || s[..|Head|] != Head then 0 else 1 + Blocks(s[|Head|..])
  }

  /** `k` copies of `w`, back to back. */
  function Repeat(w: string, k: nat): (r: string)
    ensures |r| == k * |w|
  {
    if k == 0 then [] else w + Repeat(w, k - 1)
  }

  /** The string of exactly `n` complete words: "Pascal", "Pascal_pascal", ... */
  function Chain(n: nat): (r: string)
    requires n >= 1
    ensures |r| == |Head| + (n - 1) * |Block|
  {
    Head + Repeat(Block, n - 1)
  }

  /** `k` blocks followed by a non-block are counted as exactly `k` blocks. */
  lemma {:induction false} BlocksOfRepeat(k: nat, rest: string)
    requires !StartsWithBlock(rest)
    ensures Blocks(Repeat(Block, k) + rest) == k
  {
    if k == 0 {
      assert Repeat(Block, 0) + rest == rest;
    } else {
      var t := Repeat(Block, k) + rest;
      assert t == Block + (Repeat(Block, k - 1) + rest);
      assert t[..|Block|] == Block;
      assert t[|Block|..] == Repeat(Block, k - 1) + rest;
      BlocksOfRepeat(k - 1, rest);
    }
  }

  /** Conversely, `t` splits into its counted blocks and a rest that is not a block. */
  lemma {:induction false} BlocksSplit(t: string)
    ensures |Block| * Blocks(t) <= |t|
    ensures t == Repeat(Block, Blocks(t)) + t[|Block| * Blocks(t)..]
    ensures !StartsWithBlock(t[|Block| * Blocks(t)..])
  {
    if StartsWithBlock(t) {
      var u := t[|Block|..];
      BlocksSplit(u);
      var k := Blocks(u);
      assert Blocks(t) == k + 1;
      var rest := u[|Block| * k..];
      assert rest == t[|Block| * (k + 1)..] by {
        assert |Block| * (k + 1) == |Block| + |Block| * k;
      }
      assert t == Repeat(Block, k + 1) + rest by {
        calc {
          t;
          t[..|Block|] + u;
          Block + (Repeat(Block, k) + rest);
        }
      }
    } else {
      assert t[0..] == t;
    }
  }

  /** A string made of exactly `n` words, then anything that is not a further block, counts `n`. */
  lemma CountPascalsChain(n: nat, rest: string)
    requires n >= 1
    requires !StartsWithBlock(rest)
    ensures CountPascals(Chain(n) + rest) == n
  {
    var s := Chain(n) + rest;
    assert s[..|Head|] == Head;
    assert s[|Head|..] == Repeat(Block, n - 1) + rest;
    BlocksOfRepeat(n - 1, rest);
  }

  /**
    A positive count `n` means the string begins with exactly `n` words and
    what follows them is not a further block.
   */
  lemma CountPascalsSplit(s: string)
    requires CountPascals(s) >= 1
    ensures |Chain(CountPascals(s))| <= |s|
    ensures s == Chain(CountPascals(s)) + s[|Chain(CountPascals(s))|..]
    ensures !StartsWithBlock(s[|Chain(CountPascals(s))|..])
  {
    var u := s[|Head|..];
    BlocksSplit(u);
    var k := Blocks(u);
    assert u[|Block| * k..] == s[|Head| + |Block| * k..];
    assert s == s[..|Head|] + u;
  }

  /** The worked examples, with the capital-letter edge cases. */
  lemma CountPascalsExamples()
    ensures CountPascals("Pascal") == 1
    ensures CountPascals("Pascal_pascal") == 2
    ensures CountPascals("Pascal_pascal_pascal") == 3
    ensures CountPascals("Pascal_pasca") == 1
    ensures CountPascals("Pasca") == 0
    ensures CountPascals("Xascal") == 0
    ensures CountPascals("PASCAL_PASCAL") == 0
    ensures CountPascals("Pascal_PASCAL") == 1
  {
    CountPascalsChain(1, "");
    CountPascalsChain(2, "");
    CountPascalsChain(3, "");
    CountPascalsChain(1, "_pasca");
    assert "_PASCAL"[..|Block|][1] != Block[1];
    CountPascalsChain(1, "_PASCAL");
    assert "PASCAL_PASCAL"[..|Head|][1] != Head[1];
    assert "Xascal"[..|Head|][0] != Head[0];
  }

  /** A string that does not begin with a capital P counts no word at all. */
  lemma NoCapitalNoCount(s: string)
    requires |s| >= 1 && s[0] != 'P'
    ensures CountPascals(s) == 0
  {
  }

  /** The scanning loop of `countPascals`, computing the same count. */
  method CountPascalsLoop(str: string) returns (count: nat)
    ensures count == CountPascals(str)
  {
    if |str| < 6 {
      return 0;
    }
    if str[0..6] != Head {
      return 0;
    }
    count := 1;
    var pos := 6;
    while pos + 7 <= |str|
      invariant 6 <= pos <= |str|
      invariant count + Blocks(str[pos..]) == CountPascals(str)
    {
      if str[pos..pos + 7] == Block {
        assert str[pos..][7..] == str[pos + 7..];
        count := count + 1;
        pos := pos + 7;
      } else {
        break;
      }
    }
  }
}

=== FILE: session.dfy ===
/**
  A whole session: the page-load state, the inputs that reach the game
  (the start/stop toggle, a steering input, a timer tick) and the facts that
  hold in every state a session can reach (game.js:12-21, 45-46, 71-77,
  98, 103, 127-237, 365-381).
 */
module Session {
  import opened Board
  import opened Pattern
  import opened Spawn
  import opened Game

  /**
    The invariant of every reachable state: a running game has a snake, the
    head letter is the capital P, every segment is on the grid, the cursor
    is inside the pattern, the target is on the grid with a pattern letter,
    the queued heading never reverses the committed one, no word bonus has
    been paid, and the score is a whole number of letters.
   */
  predicate Inv(s: GameState) {
    && (s.running ==> |s.snake| >= 1)
    && (|s.snake| >= 1 ==> s.snake[0].letter == 'P')
    && AllInGrid(s.snake)
    && s.currentLetterIndex < |Word|
    && (s.targetLetter.Some? ==>
          InGrid(s.targetLetter.value.x, s.targetLetter.value.y) && s.targetLetter.value.letter in Word)
    && s.nextDirection != Opposite(s.direction)
    && s.pascalCount == 0
    && s.score >= 0 && s.score % LetterPoints == 0
  }

  lemma InitialInv(bestScore: int, lastScore: int)
    ensures Inv(Initial(bestScore, lastScore))
  {
  }

  /**
    As wired, the word bonus can never be paid: it is evaluated on a snake
    whose first letter is the just-collected lowercase pattern letter, and
    a count needs a capital P in front. A collecting tick pays exactly one
    letter's points.
   */
  lemma CollectingTickPaysLetterOnly(s: GameState, draws: seq<Cell>)
    requires Inv(s) && |s.snake| >= 1
    requires ValidDraws(draws)
    requires !Crashes(s) && Collects(s)
    ensures Tick(s, draws).score == s.score + LetterPoints
    ensures Tick(s, draws).pascalCount == s.pascalCount
  {
    TickCollectsScores(s, draws);
    TickCollectsGrows(s, draws);
    var body := Tick(s, draws).snake[1..];
    assert Letters(body)[0] == s.targetLetter.value.letter;
    assert 'P' !in Word;
    NoCapitalNoCount(Letters(body));
  }

  /** One tick keeps the invariant. */
  lemma TickKeepsInv(s: GameState, draws: seq<Cell>)
    requires Inv(s) && |s.snake| >= 1
    requires ValidDraws(draws)
    ensures Inv(Tick(s, draws))
  {
    if Crashes(s) {
      assert Tick(s, draws).snake == s.snake;
    } else if Collects(s) {
      CollectingTickKeepsInv(s, draws);
    } else {
      MovingTickKeepsInv(s, draws);
    }
  }

  /**
    What a collecting move must establish for the invariant to survive it:
    a 'P' head, all segments on the grid, a pattern letter on the grid at
    the new cursor, the heading just committed, no bonus, one letter paid.
   */
  lemma InvKeptByCollection(s: GameState, r: GameState)
    requires Inv(s)
    requires |r.snake| >= 1 && r.snake[0].letter == 'P'
    requires AllInGrid(r.snake)
    requires r.currentLetterIndex < |Word|
    requires r.targetLetter.Some? && InGrid(r.targetLetter.value.x, r.targetLetter.value.y)
    requires r.targetLetter.value.letter == Word[r.currentLetterIndex]
    requires r.direction == r.nextDirection
    requires r.pascalCount == s.pascalCount && r.score == s.score + LetterPoints
    ensures Inv(r)
  {
    assert r.targetLetter.value.letter in Word;
  }

  /** The collecting case of `TickKeepsInv`. */
  lemma CollectingTickKeepsInv(s: GameState, draws: seq<Cell>)
    requires Inv(s) && |s.snake| >= 1
    requires ValidDraws(draws)
    requires !Crashes(s) && Collects(s)
    ensures Inv(Tick(s, draws))
  {
    var r := Tick(s, draws);
    TickStaysInGrid(s, draws);
    TickCollectsGrows(s, draws);
    CollectingTickPaysLetterOnly(s, draws);
    TickCollectsAdvances(s, draws);
    InvKeptByCollection(s, r);
  }

  /** The plain-move case of `TickKeepsInv`. */
  lemma MovingTickKeepsInv(s: GameState, draws: seq<Cell>)
    requires Inv(s) && |s.snake| >= 1
    requires ValidDraws(draws)
    requires !Crashes(s) && !Collects(s)
    ensures Inv(Tick(s, draws))
  {
    TickStaysInGrid(s, draws);
    TickMoves(s, draws);
  }

  /** A tick never commits the heading opposite to the one it replaces. */
  lemma TickNeverReverses(s: GameState, draws: seq<Cell>)
    requires Inv(s) && |s.snake| >= 1
    requires ValidDraws(draws)
    ensures Tick(s, draws).direction != Opposite(s.direction)
  {
  }

  /** An input reaching the game. */
  datatype Event =
    | Toggle(draws: seq<Cell>)     // the start/stop button or the space key
    | Press(name: string)          // a steering input naming a direction
    | Interval(draws: seq<Cell>)   // the game timer firing

  predicate ValidEvent(e: Event) {
    e.Press? || ValidDraws(e.draws)
  }

  /**
    One input. The toggle stops a running game and starts a stopped one; the
    timer only exists while a game runs, so a tick outside a game does
    nothing. Every input keeps the invariant and never lowers the best score.
   */
  function Step(s: GameState, e: Event): (r: GameState)
    requires Inv(s)
    requires ValidEvent(e)
    ensures Inv(r)
    ensures r.bestScore >= s.bestScore
    ensures e.Toggle? ==> r.running == !s.running
    ensures e.Toggle? && s.running ==> r.snake == s.snake && r.lastScore == (if s.score > 0 then s.score else s.lastScore)
    ensures e.Toggle? && !s.running ==> r.score == 0 && r.snake == [Segment(Centre.x, Centre.y, 'P')]
    ensures e.Press? ==> r.snake == s.snake && r.score == s.score && r.direction == s.direction
    ensures e.Press? && s.running && ParseDir(e.name).Some? && ParseDir(e.name).value != Opposite(s.direction) ==>
              r.nextDirection == ParseDir(e.name).value
    ensures e.Press? && (!s.running || ParseDir(e.name).None?) ==> r == s
    ensures e.Interval? && s.running ==> r.direction == s.nextDirection && r.direction != Opposite(s.direction)
    ensures e.Interval? && !s.running ==> r == s
  {
    match e
    case Toggle(draws) =>
      if s.running then StopGame(s) else StartGame(s, draws)
    case Press(name) =>
      SetDirection(s, name)
    case Interval(draws) =>
      if s.running then
        TickKeepsInv(s, draws);
        Tick(s, draws)
      else
        s
  }

  predicate AllValid(es: seq<Event>) {
    forall i :: 0 <= i < |es| ==> ValidEvent(es[i])
  }

  /** The state after the inputs `es`, in order. */
  function Run(s: GameState, es: seq<Event>): (r: GameState)
    requires Inv(s)
    requires AllValid(es)
    ensures Inv(r)
    ensures r.bestScore >= s.bestScore
    decreases |es|
  {
    if es == [] then s
    else
      var before := Run(s, es[..|es| - 1]);
      Step(before, es[|es| - 1])
  }

  /** Every state a session reaches from page load satisfies the invariant. */
  lemma ReachableInv(bestScore: int, lastScore: int, es: seq<Event>)
    requires AllValid(es)
    ensures Inv(Run(Initial(bestScore, lastScore), es))
    ensures Run(Initial(bestScore, lastScore), es).bestScore >= bestScore
  {
  }

  /**
    Along any session, each tick of a running game commits a heading that is
    not the reverse of the heading committed before it.
   */
  lemma {:induction false} SessionNeverReverses(s: GameState, es: seq<Event>, i: nat)
    requires Inv(s)
    requires AllValid(es)
    requires i < |es| && es[i].Interval?
    requires Run(s, es[..i]).running
    ensures Run(s, es[..i + 1]).direction != Opposite(Run(s, es[..i]).direction)
  {
    assert es[..i + 1][..i] == es[..i];
  }
}

=== FILE: spawn.dfy ===
/**
  Placing the next target letter (game.js:256-273). The source draws cells
  with `Math.random`; here the draws are an explicit sequence of cells that
  the caller supplies, and each placement uses up a prefix of it.
 */
module Spawn {
  import opened Board
  import opened Pattern

  /** The retry bound of the placement loop. */
  const MaxAttempts: nat := 100

  /**
    What the random source guarantees: enough draws for a full round of
    attempts, every one of them a cell on the grid.
   */
  predicate ValidDraws(draws: seq<Cell>) {
    |draws| >= MaxAttempts &&
    forall i :: 0 <= i < |draws| ==> InGrid(draws[i].x, draws[i].y)
  }

  /** Where the target letter went and how many draws that took. */
  datatype Placement = Placement(target: Segment, attempts: nat)

  /**
    The do-while loop: having made `k` draws, the last one `draws[k - 1]`,
    keep drawing while that cell is on the snake and fewer than
    `MaxAttempts` draws were made. Yields the final number of draws.
   */
  function Probe(snake: seq<Segment>, draws: seq<Cell>, k: nat): (n: nat)
    requires 1 <= k <= MaxAttempts <= |draws|
    ensures k <= n <= MaxAttempts
    ensures forall j :: k - 1 <= j < n - 1 ==> IsOccupied(snake, draws[j].x, draws[j].y)
    ensures n < MaxAttempts ==> !IsOccupied(snake, draws[n - 1].x, draws[n - 1].y)
    decreases MaxAttempts - k
  {
    if k < MaxAttempts && IsOccupied(snake, draws[k - 1].x, draws[k - 1].y) then
      Probe(snake, draws, k + 1)
    else
      k
  }

  /**
    `spawnLetter`: the target carries the pattern letter at `index` and sits
    on the first drawn cell the snake does not cover; when the first
    `MaxAttempts` draws all hit the snake it sits on the last of them anyway.
   */
  function SpawnLetter(snake: seq<Segment>, index: nat, draws: seq<Cell>): (p: Placement)
    requires index < |Word|
    requires ValidDraws(draws)
    ensures p.target.letter == Word[index]
    ensures 1 <= p.attempts <= MaxAttempts
    ensures p.target.x == draws[p.attempts - 1].x && p.target.y == draws[p.attempts - 1].y
    ensures InGrid(p.target.x, p.target.y)
    ensures forall j :: 0 <= j < p.attempts - 1 ==> IsOccupied(snake, draws[j].x, draws[j].y)
    ensures p.attempts < MaxAttempts ==> !IsOccupied(snake, p.target.x, p.target.y)
    ensures (exists j :: 0 <= j < MaxAttempts && !IsOccupied(snake, draws[j].x, draws[j].y)) ==>
              !IsOccupied(snake, p.target.x, p.target.y)
  {
    var n := Probe(snake, draws, 1);
    Placement(Segment(draws[n - 1].x, draws[n - 1].y, Word[index]), n)
  }

  /** When every draw hits the snake, the target is placed on the snake. */
  lemma SpawnMayOverlap(snake: seq<Segment>, index: nat, draws: seq<Cell>)
    requires index < |Word|
    requires ValidDraws(draws)
    requires forall j :: 0 <= j < MaxAttempts ==> IsOccupied(snake, draws[j].x, draws[j].y)
    ensures SpawnLetter(snake, index, draws).attempts == MaxAttempts
    ensures IsOccupied(snake, SpawnLetter(snake, index, draws).target.x, SpawnLetter(snake, index, draws).target.y)
  {
  }

  /** The placement loop as the source writes it, agreeing with `SpawnLetter`. */
  method SpawnLetterLoop(snake: seq<Segment>, index: nat, draws: seq<Cell>) returns (target: Segment, attempts: nat)
    requires index < |Word|
    requires ValidDraws(draws)
    ensures Placement(target, attempts) == SpawnLetter(snake, index, draws)
  {
    var letter := Word[index];
    var x := draws[0].x;
    var y := draws[0].y;
    attempts := 1;
    while IsOccupied(snake, x, y) && attempts < MaxAttempts
      invariant 1 <= attempts <= MaxAttempts
      invariant x == draws[attempts - 1].x && y == draws[attempts - 1].y
      invariant Probe(snake, draws, attempts) == Probe(snake, draws, 1)
      decreases MaxAttempts - attempts
    {
      x := draws[attempts].x;
      y := draws[attempts].y;
      attempts := attempts + 1;
    }
    target := Segment(x, y, letter);
  }
}
